=== FILE: README.md ===
# Go-Back-N ARQ engine in Dafny

This project models the protocol core of a Go-Back-N ARQ simulation written in Python.
The client (`client.py`) pushes `TOTAL_PACKETS` numbered data packets through a sliding
window of `WINDOW_SIZE`. It takes cumulative acks, and after each wait that ends in a
timeout it resends the whole outstanding window. The server (`server.py`) accepts packets
strictly in order against `expected_seq_num`. It acknowledges each accepted packet and
answers any other data or malformed frame with a duplicate of its last ack, once there is
one. The end and abort frames stop it without a reply.

Modules:

- `Json` (json.dfy): the JSON values a frame carries. Null, booleans, integers, strings and
  objects are modelled. A `Datagram` is either parsed JSON or text that does not parse.
- `Decimal` (decimal.dfy): Python's decimal rendering of a non-negative integer, used in the
  `"Packet-<n>"` payload, and its inverse.
- `Codec` (codec.dfy): `create_packet`, `create_ack`, the abort and end frames,
  `extract_seq_num` and `extract_ack`.
- `Sender` (sender.dfy): the client loop. It is built from pure steps:
  - `Fill`: filling the window;
  - `OnAck` and `AwaitAcks`: taking acks;
  - `OnTimeout` and `Retransmit`: the timeout handler and the go-back-N resend;
  - `Round`: one pass of the loop;
  - `Run`: the whole session, ending with the end marker.
- `Receiver` (receiver.dfy): the server loop. `Step` handles one classified frame,
  `OnDatagram` handles one datagram, and `Serve` handles a stream of datagrams.
- `Exchange` (exchange.dfy): the two engines joined by a channel that loses nothing.

Time is abstracted away. Each pass of the client loop is one *round*: a fill, then the
datagrams that arrive before the deadline, then either completion (`base >= TOTAL_PACKETS`)
or a timeout. As in the code, every round that does not complete ends in a timeout. This
holds even when acks moved `base` during the round, so such a round leaves
`consecutive_timeouts` at 1 (`Sender.Round`). `random.random() < PACKET_LOSS_RATIO` becomes
a loss oracle `nat -> bool`. It is consulted with the number of the send attempt,
`packets_sent + packets_lost`.

Behaviour modelled as the code has it, where a textbook Go-Back-N would differ:

- A malformed frame is not dropped silently. `extract_seq_num` turns it into `-1`, so the
  server discards it and still replies with `ack(expected_seq_num - 1)` when
  `expected_seq_num > 0` (`Receiver.OnDatagram`).
- After the abort frame the client also sends the end marker, because the abort `break`
  falls through to the end-marker send (`Sender.Run`, `Sender.ShapeCounts`).
- `base <= next_seq_num` is not an invariant of the client alone. An ack at or beyond
  `next_seq_num` moves `base` to `ack + 1` all the same (`Sender.OnAck`). The window bound
  `next_seq_num - base <= WINDOW_SIZE` and `next_seq_num <= TOTAL_PACKETS` is preserved.
- A string header is searched rather than looked up. `{"header": "abort"}` stops the server as
  an abort, and `{"header": "weekend"}` is taken as the end marker (`Codec.TextHeaderSignals`,
  `Codec.WeekendHeaderEnds`).
- An ack frame sent to the server, a data frame whose `seq_num` is the string `"ABORT"`, and
  one whose `seq_num` is `null` are read as malformed, abort and end respectively
  (`Codec.CrossedFramesAreMalformed`, `Codec.ClassificationCollisions`).
- On the happy path each round but the last still times out. That timeout resends an empty
  range. With `MAX_TIMEOUTS` below 1, even a lossless transfer longer than one window is
  abandoned after its first round (`Exchange.LosslessRound`,
  `Exchange.ZeroBudgetAbandonsLosslessTransfer`).

## Model

| member | source | states |
|---|---|---|
| Decimal.FromNat | client.py:45 | the decimal text of a packet number is non-empty, all digits, one digit exactly for numbers below 10, and has no leading zero except for 0 |
| Decimal.ToNatFromNat | client.py:45 | reading the decimal text of `n` back gives `n` |
| Decimal.FromNatInjective | client.py:45 | distinct packet numbers get distinct decimal texts |
| Codec.PayloadNamesSeqNum | client.py:44-48 | the payload of packet `n` is `"Packet-"` followed by digits that read back as `n` |
| Codec.PayloadInjective | client.py:44-48 | distinct data packets carry distinct payloads |
| Codec.ClientFrameRoundTrip | server.py:43-58 | every frame the client builds (data, abort, end) is classified by the server as what it encodes: its sequence number, `"ABORT"`, or `None` |
| Codec.AckRoundTrip | server.py:38-40 | `extract_ack` on the client reads back exactly the number `create_ack` wrote |
| Codec.ExtractSeqNum | server.py:43-58 | classification precedence: an `abort` in the header wins even over `end`, then `end` gives `None`, then the header's `seq_num`; unparseable text or a missing key gives `-1`; for a string header "in" is a substring test |
| Codec.ExtractAck | client.py:64-70 | a datagram yields an ack number exactly when its header holds an integer `ack_num`, and then yields that integer; otherwise `None` |
| Codec.ClassificationCollisions | server.py:47-55 | a `seq_num` of `"ABORT"` is indistinguishable from an abort frame, and a `null` one from the end marker |
| Codec.Contains | server.py:48-52 | Python's `in` on two strings holds exactly when the word occurs at some position of the text |
| Codec.TextHeaderSignals | server.py:47-53 | for every header text, a string header containing `abort` is handled and reads as `"ABORT"`, and one containing `end` but not `abort` is handled and reads as `None` |
| Codec.WeekendHeaderEnds | server.py:47-53 | `{"header": "weekend"}` contains `end` but not `abort`, so the server takes it as the end marker |
| Codec.CrossedFramesAreMalformed | server.py:55-58 | an ack frame read by the server has no `seq_num` and is classified as `-1`; a data frame read as an ack gives `None` |
| Sender.Delivered | client.py:51-61 | the frames a range of send attempts puts on the wire are data frames only, at most one per packet of the range, each within the range |
| Sender.DeliveredExactly | client.py:51-61 | exactly the packets whose attempt the loss oracle lets through reach the wire, in strictly increasing order |
| Sender.Fill | client.py:122-127 | filling advances `next_seq_num` to `min(base + WINDOW_SIZE, TOTAL_PACKETS)` or leaves it; sent plus lost grows by one per attempt, lost or not; base, timeouts, retransmissions and acks are unchanged; the wire gets exactly the unsuppressed packets of the range |
| Sender.OnAck | client.py:138-150 | an unparsed ack changes nothing; a parsed ack `n` is counted, leaves `base > n` and never lowers it; `n >= base` sets `base = n + 1` and clears the timeout counter; `n < base` leaves base and counter as they were |
| Sender.DuplicateAckIgnored | client.py:140-150 | a duplicate ack `base - 1` is counted but neither slides the window nor clears the counter |
| Sender.AwaitAcks | client.py:130-153 | over the datagrams of one wait, `base` never decreases and `next_seq_num` is unchanged; the counter is 0 if the base moved and unchanged otherwise; only ack counts change among the statistics, by at most one per datagram |
| Sender.AwaitAcksValue | client.py:138-153 | every ack the wait takes is applied: unless the wait ends with the transfer complete, every parsed ack is below the final `base`, and a `base` that moved sits just past an ack that arrived; with `base` never decreasing, the final `base` is `max(base, largest parsed ack + 1)` |
| Sender.Retransmit | client.py:176-183 | resending packets `i .. hi-1` counts every attempt as a retransmission whether or not it is suppressed; base, next and counter are unchanged; the wire gets the unsuppressed ones in order |
| Sender.OnTimeout | client.py:160-183 | a timeout adds one to the counter; past `MAX_TIMEOUTS` it sends exactly one abort frame and nothing else; otherwise it resends exactly `base .. min(next_seq_num, TOTAL_PACKETS) - 1`, with retransmissions and attempts growing by that count |
| Sender.Round | client.py:120-183 | a round completes exactly when `base >= TOTAL_PACKETS`; every unfinished round ends in a timeout, leaving the counter at 1 if acks moved the base and one higher otherwise; it aborts exactly when that counter exceeds `MAX_TIMEOUTS`; only an aborting round sends an abort frame, and as its last frame; the window bound is preserved |
| Sender.Run | client.py:120-187 | the session ends only with `base >= TOTAL_PACKETS` or through the abort, and then the end marker is the last frame; after an abort the frame before it is the single abort frame and the counter exceeds `MAX_TIMEOUTS`; base never decreases; the window bound is preserved |
| Sender.ShapeCounts | client.py:164-187 | a finished or abandoned session sends exactly one end marker, last; exactly one abort frame exactly when abandoned |
| Sender.InitialWindow | client.py:113-114 | the initial state satisfies the window bound for any non-negative window and total |
| Sender.SilentPeerAborts | client.py:160-168 | against a peer that never answers, the session is abandoned exactly on the round that takes the counter past `MAX_TIMEOUTS` |
| Sender.SilentPeerScenario | client.py:160-168 | with `MAX_TIMEOUTS = 2` and no acks, three rounds abandon the transfer and two do not |
| Receiver.Step | server.py:108-139 | the expected number is accepted exactly when it arrives: ack of it, expected and accepted up by one; `None` and `"ABORT"` stop the loop with no ack and no change; anything else is discarded, leaves expected unchanged, and is answered with an ack exactly when `expected_seq_num > 0`; every ack equals the new `expected_seq_num - 1` |
| Receiver.OnDatagram | server.py:102-139 | every datagram is counted as received; unparseable text is discarded and answered with `ack(expected - 1)` when `expected > 0` |
| Receiver.ClientFrameStep | server.py:105-139 | data packet `n` is accepted exactly when `n` is expected; another data packet gets `ack(expected - 1)` when `expected > 0`; abort and end frames stop the loop with no ack |
| Receiver.Serve | server.py:99-139 | over a stream, `expected_seq_num` never decreases and grows exactly with `packets_accepted`; the accepted numbers are the consecutive run from the starting expected value; acks are non-decreasing and each lies below the final expected value; received = accepted + discarded + one stopping frame; the loop is still listening at the end exactly when no datagram classifies as the end marker or `"ABORT"` |
| Receiver.ServeStopsAtFirst | server.py:99-129 | the loop stops at the first datagram that classifies as the end marker or `"ABORT"`, with the matching verdict, having counted that datagram and every one before it, and nothing after it changes the result |
| Receiver.ServeFromStart | server.py:97-125 | from a fresh start `expected_seq_num` equals `packets_accepted`, the accepted numbers are exactly `0, 1, 2, ...`, and every ack is below `expected_seq_num` |
| Exchange.LosslessDelivered | client.py:51-61 | with no suppressed sends, every packet of a range reaches the wire in order |
| Exchange.ServeInOrder | server.py:116-125 | a server expecting `lo` that receives `lo .. hi-1` in order accepts and acknowledges each one and ends up expecting `hi` |
| Exchange.AcksSlideWindow | client.py:145-153 | a client with base `lo` that receives acks `lo .. hi-1` slides base to `hi` and clears the counter |
| Exchange.LosslessFillServed | server.py:116-125 | in a lossless round the whole window reaches the server, which accepts and acknowledges all of it |
| Exchange.LosslessRound | client.py:148-183 | in a lossless round the base reaches the fill limit; unless that completes the transfer the round still times out, resends nothing, and leaves the counter at 1, aborting when `MAX_TIMEOUTS < 1` |
| Exchange.LosslessTransferCompletes | client.py:120-187 | over a lossless channel with `MAX_TIMEOUTS >= 1` the transfer finishes with `base = TOTAL_PACKETS`, and the server has accepted every packet |
| Exchange.ZeroBudgetAbandonsLosslessTransfer | client.py:148-168 | with `MAX_TIMEOUTS < 1` a lossless transfer longer than one window is abandoned |
| Exchange.HappyPathScenario | client.py:120-187 | with window 4, 10 packets and no loss the client ends at `base = 10` and the server expects packet 10 |

## Left out

- Configuration loading, log directory and file setup, every `logging` call, and `stats_to_log`: these are I/O with no protocol effect. The statistics themselves are modelled.
- Socket creation, hostname resolution, `bind`, `sendto`/`recvfrom` and `time.sleep`: sends are frames appended to an output sequence, and receives are input datagrams.
- `BUFFER_SIZE`: datagrams are never truncated in the model.
- Wall-clock deadlines (`time.time()`, `settimeout`): each wait is one round ending in completion or a timeout. Three timing cases are not modelled:
  - A completion that lands exactly on the deadline, which the code would also count as a timeout.
  - A `socket.timeout` from `recvfrom` that arrives while the elapsed time is still below `TIMEOUT`. The round would then end with no counter increment and no resend, and the loop would refill.
  - The `ValueError` that `settimeout` raises when the remaining time has gone negative.
- `random.random()`: it is replaced by the loss oracle.
- JSON text and UTF-8: `json.dumps`/`json.loads` are taken as a faithful round trip, and frames are structured values.
- Inputs on which the Python code raises an uncaught exception are excluded by `Codec.ServerDomain` and `Codec.ClientDomain`. These are:
  - a top-level value that is not an object;
  - on the server, a header that is neither an object nor a string, or a string header containing neither `abort` nor `end`;
  - on the client, a header that is not an object;
  - an `ack_num` that is neither a number nor `null`;
  - non-UTF-8 bytes.
- JSON arrays and non-integer numbers are not modelled: `Json.Value` has neither. Python handles some such inputs without an exception, and the model says nothing about them:
  - a list header such as `{"header": ["abort"]}` or `{"header": ["end"]}` makes the `in` tests a list-membership test, read as abort or as the end marker;
  - a float `seq_num` such as `1.0` compares equal to an integer `expected_seq_num`, so it is accepted and echoed back by `create_ack` as a float `ack_num`;
  - on the client, a float `ack_num` passes the `>=` test against `base` and makes `base` a float.
- Boolean `seq_num`/`ack_num` values are also excluded, because Python compares `True` equal to 1 and this model does not.
- The server's `socket.error` handler and the `KeyboardInterrupt` handlers of both scripts: these are environmental.
- The sender's log-only branches (duplicate versus fresh ack, retransmit versus new window message): they have no protocol effect.

=== FILE: codec.dfy ===
/**
  The frame codec the two endpoints share: `create_packet` and `extract_ack`
  on the client, `create_ack` and `extract_seq_num` on the server, and the
  literal abort and end frames. Frames are JSON values; the text encoding is
  taken as a faithful round trip.
 */
module Codec {
  import opened Wrappers
  import opened Json
  import Decimal

  /** The frames the client sends: a data packet, the abort signal, or the end marker. */
  datatype ClientFrame = Data(seqNum: nat) | Abort | End

  /** The text carried by data packet `n`: `"Packet-"` followed by the decimal form of `n`. */
  function Payload(n: nat): string {
    "Packet-" + Decimal.FromNat(n)
  }

  /** `create_packet`: `{"header": {"seq_num": n}, "data": "Packet-n"}`. */
  function CreatePacket(n: nat): Value {
    Obj(map["header" := Obj(map["seq_num" := Int(n)]), "data" := Str(Payload(n))])
  }

  const AbortFrame: Value := Obj(map["header" := Obj(map["abort" := Bool(true)])])

  const EndFrame: Value := Obj(map["header" := Obj(map["end" := Bool(true)])])

  function EncodeClient(f: ClientFrame): Value {
    match f
    case Data(n) => CreatePacket(n)
    case Abort => AbortFrame
    case End => EndFrame
  }

  /** `create_ack`: `{"header": {"ack_num": n}}`. */
  function CreateAck(n: int): Value {
    Obj(map["header" := Obj(map["ack_num" := Int(n)])])
  }

  /** A JSON object whose `header`, when present, is itself an object. */
  predicate HasObjectHeader(v: Value) {
    v.Obj? && ("header" in v.fields ==> v.fields["header"].Obj?)
  }

  /** The header's fields, or none when the frame has no header. */
  function HeaderOf(v: Value): map<string, Value>
    requires HasObjectHeader(v)
  {
    FieldsOr(v.fields, "header")
  }

  /** `word` occurs in `text` starting at position `i`. */
  predicate OccursAt(text: string, word: string, i: int) {
    0 <= i <= |text| - |word| && text[i..i + |word|] == word
  }

  /** `word` occurs in `text` as a contiguous substring (Python's `word in text` on strings). */
  function Contains(text: string, word: string): (b: bool)
    ensures b <==> exists i :: OccursAt(text, word, i)
    decreases |text|
  {
    if |text| < |word| then false
    else if text[..|word|] == word then
      assert OccursAt(text, word, 0);
      true
    else
      assert !OccursAt(text, word, 0);
      OccursAtTail(text, word);
      Contains(text[1..], word)
  }

  /** Past the first position, an occurrence in `text` is an occurrence in `text[1..]`, one position earlier. */
  lemma OccursAtTail(text: string, word: string)
    requires |text| > 0
    ensures forall i :: 1 <= i && OccursAt(text, word, i) ==> OccursAt(text[1..], word, i - 1)
    ensures forall j :: OccursAt(text[1..], word, j) ==> OccursAt(text, word, j + 1)
  {
    forall j | OccursAt(text[1..], word, j)
      ensures OccursAt(text, word, j + 1)
    {
      SliceOfTail(text, j, |word|);
    }
    forall i | 1 <= i && OccursAt(text, word, i)
      ensures OccursAt(text[1..], word, i - 1)
    {
      SliceOfTail(text, i - 1, |word|);
    }
  }

  /** An occurrence of a non-empty word starts with the word's first character. */
  lemma OccurrenceStartsWithFirstChar(text: string, word: string)
    requires |word| > 0
    ensures forall i :: OccursAt(text, word, i) ==> text[i] == word[0]
  {
    forall i | OccursAt(text, word, i)
      ensures text[i] == word[0]
    {
      assert text[i..i + |word|][0] == text[i];
    }
  }

  /** A slice of the tail is the slice of the whole text one position further on. */
  lemma SliceOfTail(text: string, j: nat, n: nat)
    requires j + 1 + n <= |text|
    ensures text[1..][j..j + n] == text[j + 1..j + 1 + n]
  {
  }

  /** The parsed object's `header` is a string. */
  predicate HasTextHeader(v: Value) {
    v.Obj? && "header" in v.fields && v.fields["header"].Str?
  }

  /**
    Python's `key in d.get("header", {})` on a parsed object: key membership
    when the header is an object (or missing), a substring test when it is
    a string.
   */
  predicate HeaderHas(d: Datagram, key: string) {
    && d.Parsed?
    && (|| (HasObjectHeader(d.value) && key in HeaderOf(d.value))
        || (HasTextHeader(d.value) && Contains(d.value.fields["header"].s, key)))
  }

  /**
    The datagrams the server handles without an uncaught exception and with
    the comparisons this model gives them: the text is not JSON, or it is an
    object whose header is missing, is an object whose `seq_num` is not a
    boolean (Python would compare `True` equal to `1`), or is a string that
    contains `abort` or `end` (any other string header fails when it is
    indexed by `"seq_num"`).
   */
  predicate ServerDomain(d: Datagram) {
    d.Parsed? ==>
      || (&& HasObjectHeader(d.value)
          && ("seq_num" in HeaderOf(d.value) ==> !HeaderOf(d.value)["seq_num"].Bool?))
      || (HasTextHeader(d.value) && (HeaderHas(d, "abort") || HeaderHas(d, "end")))
  }

  /**
    The datagrams the client's ack handling survives: the text is not JSON,
    or it is an object whose header (if any) is an object, and whose
    `ack_num`, when present, is an integer or `null`.
   */
  predicate ClientDomain(d: Datagram) {
    d.Parsed? ==>
      && HasObjectHeader(d.value)
      && ("ack_num" in HeaderOf(d.value) ==>
            HeaderOf(d.value)["ack_num"].Int? || HeaderOf(d.value)["ack_num"].Null?)
  }

  /**
    `extract_seq_num`: an `abort` in the header wins (the string
    `"ABORT"`), then an `end` (`None`, here `Null`), then the header's
    `seq_num` whatever its value; text that is not JSON or lacks the key
    gives `-1`. For a string header "in" is a substring test.
   */
  function ExtractSeqNum(d: Datagram): (r: Value)
    requires ServerDomain(d)
    ensures HeaderHas(d, "abort") ==> r == Str("ABORT")
    ensures !HeaderHas(d, "abort") && HeaderHas(d, "end") ==> r == Null
    ensures !HeaderHas(d, "abort") && !HeaderHas(d, "end") ==> d.Unparseable? || HasObjectHeader(d.value)
    ensures !HeaderHas(d, "abort") && !HeaderHas(d, "end") && HeaderHas(d, "seq_num") ==>
              r == HeaderOf(d.value)["seq_num"]
    ensures !HeaderHas(d, "abort") && !HeaderHas(d, "end") && !HeaderHas(d, "seq_num") ==>
              r == Int(-1)
    ensures !r.Bool?
  {
    match d
    case Unparseable => Int(-1)
    case Parsed(v) =>
      if HasTextHeader(v) then
        if Contains(v.fields["header"].s, "abort") then Str("ABORT") else Null
      else
        var h := HeaderOf(v);
        if "abort" in h then Str("ABORT")
        else if "end" in h then Null
        else if "seq_num" in h then h["seq_num"]
        else Int(-1)
  }

  /**
    `extract_ack`: the header's `ack_num`; text that is not JSON, a missing
    key, or a `null` value all come back as `None`.
   */
  function ExtractAck(d: Datagram): (r: Option<int>)
    requires ClientDomain(d)
    ensures r.Some? <==> HeaderHas(d, "ack_num") && HeaderOf(d.value)["ack_num"].Int?
    ensures r.Some? ==> HeaderOf(d.value)["ack_num"] == Int(r.value)
  {
    match d
    case Unparseable => None
    case Parsed(v) =>
      var h := HeaderOf(v);
      if "ack_num" in h && h["ack_num"].Int? then Some(h["ack_num"].i) else None
  }

  /** What the server reads from each client frame: the sequence number, `"ABORT"`, or `None`. */
  function ServerReading(f: ClientFrame): Value {
    match f
    case Data(n) => Int(n)
    case Abort => Str("ABORT")
    case End => Null
  }

  /** Every client frame is in the server's domain and is classified as what it encodes. */
  lemma ClientFrameRoundTrip(f: ClientFrame)
    ensures ServerDomain(Parsed(EncodeClient(f)))
    ensures ExtractSeqNum(Parsed(EncodeClient(f))) == ServerReading(f)
  {
  }

  /** `extract_ack` reads back exactly the number `create_ack` wrote. */
  lemma AckRoundTrip(n: int)
    ensures ClientDomain(Parsed(CreateAck(n)))
    ensures ExtractAck(Parsed(CreateAck(n))) == Some(n)
  {
  }

  /** The payload of packet `n` is `"Packet-"` followed by digits that read back as `n`. */
  lemma PayloadNamesSeqNum(n: nat)
    ensures |Payload(n)| > 7 && Payload(n)[..7] == "Packet-"
    ensures Decimal.AllDigits(Payload(n)[7..]) && Decimal.ToNat(Payload(n)[7..]) == n
  {
    assert Payload(n)[7..] == Decimal.FromNat(n);
    Decimal.ToNatFromNat(n);
  }

  /** Distinct data packets carry distinct payloads. */
  lemma PayloadInjective(m: nat, n: nat)
    ensures Payload(m) == Payload(n) ==> m == n
  {
    if Payload(m) == Payload(n) {
      assert Payload(m)[7..] == Decimal.FromNat(m);
      assert Payload(n)[7..] == Decimal.FromNat(n);
      Decimal.FromNatInjective(m, n);
    }
  }

  /**
    The server cannot tell a data frame whose `seq_num` is the string
    `"ABORT"` from a real abort frame, nor one whose `seq_num` is `null`
    from the end marker.
   */
  lemma ClassificationCollisions()
    ensures ExtractSeqNum(Parsed(Obj(map["header" := Obj(map["seq_num" := Str("ABORT")])])))
         == ExtractSeqNum(Parsed(AbortFrame))
    ensures ExtractSeqNum(Parsed(Obj(map["header" := Obj(map["seq_num" := Null])])))
         == ExtractSeqNum(Parsed(EndFrame))
  {
  }

  /**
    A string header is searched, not looked up: a header text containing
    `"abort"` anywhere stops the server as an abort, and otherwise one
    containing `"end"` anywhere is taken as the end marker.
   */
  lemma TextHeaderSignals(t: string)
    ensures Contains(t, "abort") ==>
              && ServerDomain(Parsed(Obj(map["header" := Str(t)])))
              && ExtractSeqNum(Parsed(Obj(map["header" := Str(t)]))) == Str("ABORT")
    ensures !Contains(t, "abort") && Contains(t, "end") ==>
              && ServerDomain(Parsed(Obj(map["header" := Str(t)])))
              && ExtractSeqNum(Parsed(Obj(map["header" := Str(t)]))) == Null
  {
    var d := Parsed(Obj(map["header" := Str(t)]));
    assert HasTextHeader(d.value);
    assert d.value.fields["header"].s == t;
    assert !HasObjectHeader(d.value);
  }

  /** `{"header": "weekend"}` contains `end` but not `abort`, so the server takes it as the end marker. */
  lemma WeekendHeaderEnds()
    ensures ServerDomain(Parsed(Obj(map["header" := Str("weekend")])))
    ensures ExtractSeqNum(Parsed(Obj(map["header" := Str("weekend")]))) == Null
  {
    var header := "weekend";
    assert header[4..7] == "end";
    assert OccursAt(header, "end", 4);
    OccurrenceStartsWithFirstChar(header, "abort");
    assert forall i :: 0 <= i < |header| ==> header[i] != 'a';
    TextHeaderSignals(header);
  }

  /** An ack frame delivered to the server lacks `seq_num` and reads as malformed; a data frame read as an ack is `None`. */
  lemma CrossedFramesAreMalformed(n: nat)
    ensures ExtractSeqNum(Parsed(CreateAck(n))) == Int(-1)
    ensures ExtractAck(Parsed(CreatePacket(n))) == None
  {
  }
}

=== FILE: decimal.dfy ===
/**
  Decimal rendering of a non-negative integer, as Python's f-string `{n}`
  writes it, together with the parser that reads it back.
 */
module Decimal {

  predicate IsDigit(c: char) {
    '0' <= c <= '9'
  }

  predicate AllDigits(s: string) {
    forall i :: 0 <= i < |s| ==> IsDigit(s[i])
  }

  function DigitChar(d: nat): (c: char)
    requires d < 10
    ensures IsDigit(c) && c as int - '0' as int == d
  {
    ('0' as int + d) as char
  }

  /** The decimal text of `n`: digits only, never empty, and no leading zero except for `0` itself. */
  function FromNat(n: nat): (s: string)
    ensures |s| > 0 && AllDigits(s)
    ensures s[0] == '0' ==> n == 0
    ensures n < 10 <==> |s| == 1
    decreases n
  {
    if n < 10 then [DigitChar(n)] else FromNat(n / 10) + [DigitChar(n % 10)]
  }

  /** The value of a string of decimal digits, most significant digit first. */
  function ToNat(s: string): nat
    requires AllDigits(s)
    decreases |s|
  {
    if |s| == 0 then 0 else ToNat(s[..|s| - 1]) * 10 + (s[|s| - 1] as int - '0' as int)
  }

  /** Reading back the rendering of `n` gives `n`. */
  lemma {:induction false} ToNatFromNat(n: nat)
    ensures ToNat(FromNat(n)) == n
    decreases n
  {
    if n >= 10 {
      var s := FromNat(n);
      assert s[..|s| - 1] == FromNat(n / 10);
      ToNatFromNat(n / 10);
    }
  }

  /** Distinct numbers are rendered as distinct texts. */
  lemma FromNatInjective(m: nat, n: nat)
    ensures FromNat(m) == FromNat(n) ==> m == n
  {
    ToNatFromNat(m);
    ToNatFromNat(n);
  }
}

=== FILE: exchange.dfy ===
/**
  The two engines connected by a channel that loses nothing and delivers
  every ack before the deadline: the happy path of a Go-Back-N transfer as
  the code actually runs it, with each round but the last still ending in a
  timeout that resends nothing.
 */
module Exchange {
  import opened Wrappers
  import opened Json
  import opened Codec
  import Sender
  import Receiver

  /** An oracle that never suppresses a send (PACKET_LOSS_RATIO = 0). */
  ghost predicate Lossless(loss: Sender.LossOracle) {
    forall k :: !loss(k)
  }

  /** The numbers `lo, lo+1, ..., hi-1`. */
  function Range(lo: nat, hi: nat): (ns: seq<nat>)
    ensures |ns| == Sender.RangeSize(lo, hi)
    ensures forall i :: 0 <= i < |ns| ==> ns[i] == lo + i
    decreases hi - lo
  {
    if lo >= hi then [] else [lo] + Range(lo + 1, hi)
  }

  /** The data frames for the given packet numbers, in order. */
  function DataFrames(ns: seq<nat>): (fs: seq<ClientFrame>)
    ensures |fs| == |ns|
    ensures forall i :: 0 <= i < |fs| ==> fs[i] == Data(ns[i])
  {
    if |ns| == 0 then [] else [Data(ns[0])] + DataFrames(ns[1..])
  }

  /** The data frames for packets `lo .. hi-1`, in order. */
  function DataRange(lo: nat, hi: nat): seq<ClientFrame> {
    DataFrames(Range(lo, hi))
  }

  /** A non-empty run of data frames is its first frame followed by the rest. */
  lemma DataRangeTail(lo: nat, hi: nat)
    requires lo < hi
    ensures DataRange(lo, hi) == [Data(lo)] + DataRange(lo + 1, hi)
  {
    assert Range(lo, hi)[1..] == Range(lo + 1, hi);
  }

  /** Client frames as the server receives them. */
  function ToServer(fs: seq<ClientFrame>): (ds: seq<Datagram>)
    ensures |ds| == |fs|
    ensures Receiver.AllServerDomain(ds)
  {
    if |fs| == 0 then []
    else
      ClientFrameRoundTrip(fs[0]);
      [Parsed(EncodeClient(fs[0]))] + ToServer(fs[1..])
  }

  /** Ack numbers as the client receives them. */
  function ToClient(acks: seq<nat>): (ds: seq<Datagram>)
    ensures |ds| == |acks|
    ensures forall i :: 0 <= i < |ds| ==> ClientDomain(ds[i])
  {
    if |acks| == 0 then []
    else
      AckRoundTrip(acks[0]);
      [Parsed(CreateAck(acks[0]))] + ToClient(acks[1..])
  }

  /** Without loss, every packet of the range reaches the wire. */
  lemma {:induction false} LosslessDelivered(lo: nat, hi: nat, k: nat, loss: Sender.LossOracle)
    requires Lossless(loss)
    ensures Sender.Delivered(lo, hi, k, loss) == DataRange(lo, hi)
    decreases hi - lo
  {
    if lo < hi {
      LosslessDelivered(lo + 1, hi, k + 1, loss);
    }
  }

  /**
    A server expecting `lo` that receives packets `lo .. hi-1` in order
    accepts them all and acknowledges each one, ending up expecting `hi`.
   */
  lemma {:induction false} ServeInOrder(r: Receiver.State, lo: nat, hi: nat)
    requires r.expected == lo
    ensures var x := Receiver.Serve(r, ToServer(DataRange(lo, hi)));
      && x.verdict == Receiver.Listening
      && x.acks == Range(lo, hi)
      && x.state.expected == if lo < hi then hi else lo
    decreases hi - lo
  {
    if lo < hi {
      var ds := ToServer(DataRange(lo, hi));
      DataRangeTail(lo, hi);
      assert ds[0] == Parsed(EncodeClient(Data(lo)));
      assert ds[1..] == ToServer(DataRange(lo + 1, hi));
      Receiver.ClientFrameStep(r, Data(lo));
      var x := Receiver.OnDatagram(r, ds[0]);
      ServeInOrder(x.state, lo + 1, hi);
    }
  }

  /**
    A client whose base is `lo` that receives acks `lo .. hi-1` in order
    slides its base to `hi` and clears its timeout counter.
   */
  lemma {:induction false} AcksSlideWindow(c: Sender.Config, s: Sender.State, lo: nat, hi: nat)
    requires s.base == lo < hi <= c.total
    ensures var a := Sender.AwaitAcks(c, s, ToClient(Range(lo, hi)));
      a.base == hi && a.timeouts == 0 && a.next == s.next
    decreases hi - lo
  {
    var ds := ToClient(Range(lo, hi));
    assert ds[0] == Parsed(CreateAck(lo));
    AckRoundTrip(lo);
    var s1 := Sender.OnAck(s, Some(lo));
    assert ds[1..] == ToClient(Range(lo + 1, hi));
    if lo + 1 < hi {
      AcksSlideWindow(c, s1, lo + 1, hi);
    }
  }

  /**
    The first half of a lossless round: the whole window reaches the server,
    which accepts and acknowledges every packet of it.
   */
  lemma LosslessFillServed(c: Sender.Config, s: Sender.State, r: Receiver.State, loss: Sender.LossOracle)
    requires Lossless(loss) && c.window >= 1
    requires s.base == s.next == r.expected && s.base < c.total
    ensures var filled := Sender.Fill(c, s, loss);
      var served := Receiver.Serve(r, ToServer(filled.out));
      && s.base < Sender.FillLimit(c, s) <= c.total
      && filled.state.next == Sender.FillLimit(c, s) && filled.state.base == s.base
      && filled.out == DataRange(s.base, Sender.FillLimit(c, s))
      && served.verdict == Receiver.Listening
      && served.acks == Range(s.base, Sender.FillLimit(c, s))
      && served.state.expected == Sender.FillLimit(c, s)
  {
    LosslessDelivered(s.next, Sender.FillLimit(c, s), Sender.Attempts(s.stats), loss);
    ServeInOrder(r, s.base, Sender.FillLimit(c, s));
  }

  /**
    One lossless round with the server in step with the client: the window
    is filled, all of it is accepted and acknowledged, and the base reaches
    the fill limit. Unless that completes the transfer the round still ends
    in a timeout, which resends nothing and leaves the counter at 1, so it
    aborts when MAX_TIMEOUTS is below 1.
   */
  lemma LosslessRound(c: Sender.Config, s: Sender.State, r: Receiver.State, loss: Sender.LossOracle)
    requires Lossless(loss) && c.window >= 1
    requires s.base == s.next == r.expected && s.base < c.total
    ensures var filled := Sender.Fill(c, s, loss);
      var served := Receiver.Serve(r, ToServer(filled.out));
      var round := Sender.Round(c, s, ToClient(served.acks), loss);
      && round.state.base == round.state.next == served.state.expected == Sender.FillLimit(c, s)
      && (round.verdict == Sender.Completed <==> Sender.FillLimit(c, s) == c.total)
      && (round.verdict != Sender.Completed ==>
            round.state.timeouts == 1 && (round.verdict == Sender.Aborted <==> c.maxTimeouts < 1))
      && (round.verdict != Sender.Aborted ==> round.out == DataRange(s.base, Sender.FillLimit(c, s)))
  {
    var limit := Sender.FillLimit(c, s);
    LosslessFillServed(c, s, r, loss);
    var filled := Sender.Fill(c, s, loss);
    var served := Receiver.Serve(r, ToServer(filled.out));
    var ds := ToClient(served.acks);
    AcksSlideWindow(c, filled.state, s.base, limit);
    var acked := Sender.AwaitAcks(c, filled.state, ds);
    assert acked.base == acked.next == limit;
    if acked.base < c.total {
      var timedOut := Sender.OnTimeout(c, acked, loss);
      if timedOut.verdict == Sender.Continuing {
        assert timedOut.out == [];
      }
    }
  }

  /** The acks of each lockstep round, and the server's state at the end. */
  datatype Lockstep = Lockstep(rounds: seq<seq<Datagram>>, server: Receiver.State)

  /**
    Runs the lossless exchange round by round: each round's acks are those
    the server sends for the client's fill of that round.
   */
  function RunLockstep(c: Sender.Config, s: Sender.State, r: Receiver.State, loss: Sender.LossOracle): (x: Lockstep)
    requires Lossless(loss) && c.window >= 1
    requires s.base == s.next == r.expected
    ensures Sender.AllClientDomain(x.rounds)
    decreases c.total - s.base
  {
    if s.base >= c.total then
      Lockstep([], r)
    else
      var filled := Sender.Fill(c, s, loss);
      var served := Receiver.Serve(r, ToServer(filled.out));
      var acks := ToClient(served.acks);
      var round := Sender.Round(c, s, acks, loss);
      LosslessRound(c, s, r, loss);
      var rest := RunLockstep(c, round.state, served.state, loss);
      Sender.AllClientDomainCons(acks, rest.rounds);
      Lockstep([acks] + rest.rounds, rest.server)
  }

  /**
    Over a lossless channel with MAX_TIMEOUTS of at least 1, the transfer
    completes: the client reaches `base = TOTAL_PACKETS` and sends the end
    marker, and the server has accepted every packet.
   */
  lemma {:induction false} LosslessTransferCompletes(c: Sender.Config, s: Sender.State, r: Receiver.State, loss: Sender.LossOracle)
    requires Lossless(loss) && c.window >= 1 && c.maxTimeouts >= 1
    requires s.base == s.next == r.expected <= c.total
    ensures var x := RunLockstep(c, s, r, loss);
      var session := Sender.Run(c, s, x.rounds, loss);
      && session.outcome == Sender.Finished
      && session.state.base == c.total
      && x.server.expected == c.total
    decreases c.total - s.base
  {
    if s.base < c.total {
      var filled := Sender.Fill(c, s, loss);
      var served := Receiver.Serve(r, ToServer(filled.out));
      var acks := ToClient(served.acks);
      var round := Sender.Round(c, s, acks, loss);
      LosslessRound(c, s, r, loss);
      var x := RunLockstep(c, s, r, loss);
      var rest := RunLockstep(c, round.state, served.state, loss);
      assert x.rounds == [acks] + rest.rounds;
      assert x.rounds[1..] == rest.rounds;
      LosslessTransferCompletes(c, round.state, served.state, loss);
    }
  }

  /**
    With MAX_TIMEOUTS below 1, even a lossless transfer that needs more than
    one window is abandoned after its first round, because that round ends
    in a timeout although it made progress.
   */
  lemma ZeroBudgetAbandonsLosslessTransfer(c: Sender.Config, s: Sender.State, r: Receiver.State, loss: Sender.LossOracle)
    requires Lossless(loss) && c.window >= 1 && c.maxTimeouts < 1
    requires s.base == s.next == r.expected && s.base + c.window < c.total
    ensures Sender.Run(c, s, RunLockstep(c, s, r, loss).rounds, loss).outcome == Sender.Abandoned
  {
    LosslessRound(c, s, r, loss);
  }

  /**
    The happy path with WINDOW_SIZE = 4, TOTAL_PACKETS = 10 and no loss:
    the client finishes with `base = 10` and the server expects packet 10.
   */
  lemma HappyPathScenario(loss: Sender.LossOracle)
    requires Lossless(loss)
    ensures var c := Sender.Config(4, 10, 2);
      var x := RunLockstep(c, Sender.Initial, Receiver.Initial, loss);
      && Sender.Run(c, Sender.Initial, x.rounds, loss).outcome == Sender.Finished
      && Sender.Run(c, Sender.Initial, x.rounds, loss).state.base == 10
      && x.server.expected == 10
  {
    LosslessTransferCompletes(Sender.Config(4, 10, 2), Sender.Initial, Receiver.Initial, loss);
  }
}

=== FILE: json.dfy ===
/**
  The structured values that travel in a frame once `json.dumps`/`json.loads`
  are taken as a faithful round trip. Only the shapes the protocol uses are
  modelled: objects, integers, strings, booleans and `null`.
 */
module Json {

  datatype Value =
    | Null
    | Bool(b: bool)
    | Int(i: int)
    | Str(s: string)
    | Obj(fields: map<string, Value>)

  /** A datagram as a receiving endpoint sees it: text that parses as JSON, or text that does not. */
  datatype Datagram = Parsed(value: Value) | Unparseable

  /** The fields of the object stored under `key`, or no fields when the key is missing (`d.get(key, {})`). */
  function FieldsOr(fields: map<string, Value>, key: string): map<string, Value>
    requires key in fields ==> fields[key].Obj?
  {
    if key in fields then fields[key].fields else map[]
  }
}

=== FILE: receiver.dfy ===
/**
  The server's Go-Back-N engine (`main` in server.py): strictly in-order
  acceptance against `expected_seq_num`, a cumulative ack for each accepted
  packet, a duplicate of the last ack for anything else, and termination on
  the end marker or the abort signal.
 */
module Receiver {
  import opened Wrappers
  import opened Json
  import opened Codec

  datatype Stats = Stats(received: nat, accepted: nat, discarded: nat)

  datatype State = State(expected: nat, stats: Stats)

  datatype Verdict = Listening | EndReceived | AbortReceived

  /** The outcome of one datagram: the new state, the ack number sent back (if any), and whether the loop stops. */
  datatype Reply = Reply(state: State, ack: Option<nat>, verdict: Verdict)

  const Initial: State := State(0, Stats(0, 0, 0))

  /**
    The body of the receive loop after classification: `None` ends the
    session, the expected number is accepted and acknowledged, `"ABORT"`
    ends the session, and every other value (the malformed `-1` included)
    is discarded and answered with a duplicate of the last ack, if there is one.
   */
  function Step(r: State, v: Value): (x: Reply)
    requires !v.Bool?
    ensures x.state.stats.received == r.stats.received
    ensures x.state.expected == r.expected + 1 <==> v == Int(r.expected)
    ensures v != Int(r.expected) ==> x.state.expected == r.expected
    ensures v == Int(r.expected) ==>
              && x.ack == Some(r.expected) && x.verdict == Listening
              && x.state.stats == r.stats.(accepted := r.stats.accepted + 1)
    ensures v == Null ==> x == Reply(r, None, EndReceived)
    ensures v == Str("ABORT") ==> x == Reply(r, None, AbortReceived)
    ensures v != Null && v != Str("ABORT") && v != Int(r.expected) ==>
              && x.verdict == Listening
              && x.state.stats == r.stats.(discarded := r.stats.discarded + 1)
              && (x.ack.Some? <==> r.expected > 0)
    ensures x.ack.Some? ==> x.ack.value + 1 == x.state.expected
    ensures x.verdict != Listening ==> x.ack.None? && x.state == r
  {
    if v == Null then
      Reply(r, None, EndReceived)
    else if v == Int(r.expected) then
      Reply(State(r.expected + 1, r.stats.(accepted := r.stats.accepted + 1)), Some(r.expected), Listening)
    else if v == Str("ABORT") then
      Reply(r, None, AbortReceived)
    else
      var discarded := r.(stats := r.stats.(discarded := r.stats.discarded + 1));
      Reply(discarded, if r.expected > 0 then Some(r.expected - 1) else None, Listening)
  }

  /** One iteration of the receive loop: count the datagram, classify it, and step. */
  function OnDatagram(r: State, d: Datagram): (x: Reply)
    requires ServerDomain(d)
    ensures x.state.stats.received == r.stats.received + 1
    ensures x.ack.Some? ==> x.ack.value + 1 == x.state.expected
    ensures d == Unparseable ==>
              && x.verdict == Listening && x.state.expected == r.expected
              && x.state.stats.discarded == r.stats.discarded + 1
              && (x.ack == if r.expected > 0 then Some(r.expected - 1) else None)
  {
    Step(r.(stats := r.stats.(received := r.stats.received + 1)), ExtractSeqNum(d))
  }

  /** The ack a reply sends, as a list of zero or one numbers. */
  function AckList(ack: Option<nat>): seq<nat> {
    match ack
    case None => []
    case Some(n) => [n]
  }

  /**
    The receive loop over the datagrams that arrive, in order, until one of
    them stops it: the acks sent, the sequence numbers accepted, and why
    the loop stopped, if it did.
   */
  datatype Session = Session(state: State, acks: seq<nat>, accepted: seq<nat>, verdict: Verdict)

  predicate AllServerDomain(ds: seq<Datagram>) {
    forall i :: 0 <= i < |ds| ==> ServerDomain(ds[i])
  }

  /** A datagram that ends the receive loop: it classifies as the end marker or the abort signal. */
  predicate StopsLoop(d: Datagram)
    requires ServerDomain(d)
  {
    ExtractSeqNum(d) == Null || ExtractSeqNum(d) == Str("ABORT")
  }

  function Serve(r: State, ds: seq<Datagram>): (x: Session)
    requires AllServerDomain(ds)
    ensures x.state.expected >= r.expected
    ensures x.state.expected - r.expected == x.state.stats.accepted - r.stats.accepted
    ensures |x.accepted| == x.state.expected - r.expected
    ensures forall i :: 0 <= i < |x.accepted| ==> x.accepted[i] == r.expected + i
    ensures forall i :: 0 <= i < |x.acks| ==> r.expected <= x.acks[i] + 1 <= x.state.expected
    ensures forall i, j :: 0 <= i < j < |x.acks| ==> x.acks[i] <= x.acks[j]
    ensures x.state.stats.received - r.stats.received ==
              (x.state.stats.accepted - r.stats.accepted) + (x.state.stats.discarded - r.stats.discarded)
              + (if x.verdict == Listening then 0 else 1)
    ensures x.verdict == Listening ==> x.state.stats.received - r.stats.received == |ds|
    ensures x.state.stats.received - r.stats.received <= |ds|
    ensures x.verdict == Listening <==> forall i :: 0 <= i < |ds| ==> !StopsLoop(ds[i])
    decreases |ds|
  {
    if |ds| == 0 then
      Session(r, [], [], Listening)
    else
      var x := OnDatagram(r, ds[0]);
      if x.verdict != Listening then
        Session(x.state, [], [], x.verdict)
      else
        var rest := Serve(x.state, ds[1..]);
        var now := if x.state.expected > r.expected then [r.expected] else [];
        Session(rest.state, AckList(x.ack) + rest.acks, now + rest.accepted, rest.verdict)
  }

  /**
    The loop stops at the first datagram that classifies as the end marker
    or the abort signal, with the matching verdict, having counted it and
    every datagram before it, and handles nothing that comes after it.
   */
  lemma {:induction false} ServeStopsAtFirst(r: State, ds: seq<Datagram>, k: nat)
    requires AllServerDomain(ds)
    requires k < |ds| && StopsLoop(ds[k])
    requires forall i :: 0 <= i < k ==> !StopsLoop(ds[i])
    ensures var x := Serve(r, ds);
      && x.verdict == (if ExtractSeqNum(ds[k]) == Null then EndReceived else AbortReceived)
      && x.state.stats.received == r.stats.received + k + 1
      && x == Serve(r, ds[..k + 1])
    decreases k
  {
    var x := OnDatagram(r, ds[0]);
    if k > 0 {
      assert !StopsLoop(ds[0]);
      assert ds[..k + 1][1..] == ds[1..][..k];
      ServeStopsAtFirst(x.state, ds[1..], k - 1);
    }
  }

  /**
    How the server answers each client frame: data packet `n` is accepted
    and acknowledged exactly when `n` is the expected number; any other data
    packet is discarded and answered with `expected - 1` when that exists;
    the abort and end frames stop the loop without an ack.
   */
  lemma ClientFrameStep(r: State, f: ClientFrame)
    ensures ServerDomain(Parsed(EncodeClient(f)))
    ensures var x := OnDatagram(r, Parsed(EncodeClient(f)));
      && x.state.stats.received == r.stats.received + 1
      && (f.Data? && f.seqNum == r.expected ==>
            x.verdict == Listening && x.ack == Some(r.expected) && x.state.expected == r.expected + 1)
      && (f.Data? && f.seqNum != r.expected ==>
            && x.verdict == Listening && x.state.expected == r.expected
            && x.ack == (if r.expected > 0 then Some(r.expected - 1) else None))
      && (f == Abort ==> x.verdict == AbortReceived && x.ack.None? && x.state.expected == r.expected)
      && (f == End ==> x.verdict == EndReceived && x.ack.None? && x.state.expected == r.expected)
  {
    ClientFrameRoundTrip(f);
  }

  /**
    From a fresh start, `expected_seq_num` always equals `packets_accepted`,
    the accepted numbers are exactly `0, 1, 2, ...` in order, and every ack is
    below `expected_seq_num`.
   */
  lemma ServeFromStart(ds: seq<Datagram>)
    requires AllServerDomain(ds)
    ensures var x := Serve(Initial, ds);
      && x.state.expected == x.state.stats.accepted == |x.accepted|
      && (forall i :: 0 <= i < |x.accepted| ==> x.accepted[i] == i)
      && (forall i :: 0 <= i < |x.acks| ==> x.acks[i] < x.state.expected)
  {
  }
}

=== FILE: sender.dfy ===
/**
  The client's Go-Back-N engine (`main` in client.py): a sliding window over
  `TOTAL_PACKETS` data packets, cumulative acks, and go-back-N retransmission
  when a round's wait ends in a timeout. Time is abstracted into rounds that
  end either in completion or in a timeout; `random.random()` is replaced by a
  loss oracle consulted with the number of the send attempt.
 */
module Sender {
  import opened Wrappers
  import opened Json
  import opened Codec

  /** The settings that affect the protocol: WINDOW_SIZE, TOTAL_PACKETS and MAX_TIMEOUTS. */
  datatype Config = Config(window: int, total: int, maxTimeouts: int)

  datatype Stats = Stats(sent: nat, lost: nat, retransmissions: nat, acksReceived: nat)

  datatype State = State(base: nat, next: nat, timeouts: nat, stats: Stats)

  /** `loss(k)` holds when the `k`-th send attempt of the session (counting from 0) is suppressed. */
  type LossOracle = nat -> bool

  /** What a phase of the client leaves behind: its new state and the frames it put on the wire, in order. */
  datatype Step = Step(state: State, out: seq<ClientFrame>)

  datatype Verdict = Continuing | Completed | Aborted

  datatype RoundResult = RoundResult(state: State, out: seq<ClientFrame>, verdict: Verdict)

  const Initial: State := State(0, 0, 0, Stats(0, 0, 0, 0))

  /** Every call of `send_packet` counts either as sent or as lost. */
  function Attempts(st: Stats): nat {
    st.sent + st.lost
  }

  function Min(a: int, b: int): int {
    if a <= b then a else b
  }

  /** The number of integers in `[lo, hi)`. */
  function RangeSize(lo: int, hi: int): nat {
    if lo < hi then hi - lo else 0
  }

  /** The window bound: `next - base <= WINDOW_SIZE` and `next <= TOTAL_PACKETS`. */
  predicate WindowInv(c: Config, s: State) {
    s.next - s.base <= c.window && s.next <= c.total
  }

  /** Only data frames, no abort or end marker. */
  predicate DataOnly(fs: seq<ClientFrame>) {
    forall i :: 0 <= i < |fs| ==> fs[i].Data?
  }

  /**
    The data frames that reach the wire when packets `lo .. hi-1` are
    attempted in order as attempts `k, k+1, ...`: those the oracle lets through.
   */
  function Delivered(lo: nat, hi: int, k: nat, loss: LossOracle): (d: seq<ClientFrame>)
    ensures |d| <= RangeSize(lo, hi)
    ensures DataOnly(d)
    ensures forall i :: 0 <= i < |d| ==> lo <= d[i].seqNum < hi
    decreases hi - lo
  {
    if lo >= hi then [] else (if loss(k) then [] else [Data(lo)]) + Delivered(lo + 1, hi, k + 1, loss)
  }

  /**
    Exactly the packets of `[lo, hi)` whose attempt the oracle does not
    suppress reach the wire, in strictly increasing order.
   */
  lemma {:induction false} DeliveredExactly(lo: nat, hi: int, k: nat, loss: LossOracle)
    ensures forall n: nat :: Data(n) in Delivered(lo, hi, k, loss) <==> lo <= n < hi && !loss(k + (n - lo))
    ensures forall i, j :: 0 <= i < j < |Delivered(lo, hi, k, loss)| ==>
              Delivered(lo, hi, k, loss)[i].seqNum < Delivered(lo, hi, k, loss)[j].seqNum
    decreases hi - lo
  {
    if lo < hi {
      DeliveredExactly(lo + 1, hi, k + 1, loss);
    }
  }

  /** One call of `send_packet` for packet `n`. */
  function SendPacket(st: Stats, n: nat, loss: LossOracle): (Stats, seq<ClientFrame>) {
    if loss(Attempts(st)) then (st.(lost := st.lost + 1), []) else (st.(sent := st.sent + 1), [Data(n)])
  }

  /** Where filling stops: `base + WINDOW_SIZE` or `TOTAL_PACKETS`, whichever comes first. */
  function FillLimit(c: Config, s: State): int {
    Min(s.base + c.window, c.total)
  }

  /**
    The fill loop: send `next_seq_num` and advance it, whether or not the send
    was suppressed, until the window or the total is reached.
   */
  function Fill(c: Config, s: State, loss: LossOracle): (r: Step)
    ensures r.state.base == s.base && r.state.timeouts == s.timeouts
    ensures r.state.next == if s.next < FillLimit(c, s) then FillLimit(c, s) else s.next
    ensures Attempts(r.state.stats) == Attempts(s.stats) + (r.state.next - s.next)
    ensures r.state.stats.sent == s.stats.sent + |r.out|
    ensures r.state.stats.retransmissions == s.stats.retransmissions
    ensures r.state.stats.acksReceived == s.stats.acksReceived
    ensures r.out == Delivered(s.next, r.state.next, Attempts(s.stats), loss)
    decreases FillLimit(c, s) - s.next
  {
    if s.next < s.base + c.window && s.next < c.total then
      var (st, out) := SendPacket(s.stats, s.next, loss);
      var rest := Fill(c, s.(next := s.next + 1, stats := st), loss);
      Step(rest.state, out + rest.out)
    else
      Step(s, [])
  }

  /**
    Handling of one received datagram's `extract_ack` result: a parsed ack
    is counted, and one at or beyond `base` slides the window past it and
    clears the timeout counter; anything else changes nothing.
   */
  function OnAck(s: State, ack: Option<int>): (r: State)
    ensures ack.None? ==> r == s
    ensures ack.Some? ==> r.stats == s.stats.(acksReceived := s.stats.acksReceived + 1)
    ensures r.next == s.next && r.base >= s.base
    ensures ack.Some? ==> r.base > ack.value
    ensures ack.Some? && ack.value >= s.base ==> r.base == ack.value + 1 && r.timeouts == 0
    ensures ack.Some? && ack.value < s.base ==> r.base == s.base && r.timeouts == s.timeouts
  {
    match ack
    case None => s
    case Some(n) =>
      var counted := s.(stats := s.stats.(acksReceived := s.stats.acksReceived + 1));
      if n >= s.base then counted.(base := n + 1, timeouts := 0) else counted
  }

  /**
    The ack-wait loop over the datagrams that arrive before the deadline:
    it stops early only once a parsed ack has brought `base` to the total.
   */
  function AwaitAcks(c: Config, s: State, ds: seq<Datagram>): (r: State)
    requires forall i :: 0 <= i < |ds| ==> ClientDomain(ds[i])
    ensures r.next == s.next && r.base >= s.base
    ensures r.stats == s.stats.(acksReceived := r.stats.acksReceived)
    ensures r.stats.acksReceived - s.stats.acksReceived <= |ds|
    ensures r.base > s.base ==> r.timeouts == 0
    ensures r.base == s.base ==> r.timeouts == s.timeouts
    decreases |ds|
  {
    if |ds| == 0 then s
    else
      var ack := ExtractAck(ds[0]);
      var s1 := OnAck(s, ack);
      if ack.Some? && s1.base >= c.total then s1 else AwaitAcks(c, s1, ds[1..])
  }

  /**
    The ack-wait loop applies every ack it takes: unless the wait ends with
    the transfer complete, every parsed ack is below the final `base`, and a
    base that moved sits just past an ack that arrived. With `base` never
    decreasing, this makes the final base `max(base, largest ack + 1)`.
   */
  lemma {:induction false} AwaitAcksValue(c: Config, s: State, ds: seq<Datagram>)
    requires forall i :: 0 <= i < |ds| ==> ClientDomain(ds[i])
    ensures var r := AwaitAcks(c, s, ds);
      && (r.base < c.total ==>
            forall i :: 0 <= i < |ds| && ExtractAck(ds[i]).Some? ==> ExtractAck(ds[i]).value < r.base)
      && (r.base > s.base ==> exists i :: 0 <= i < |ds| && ExtractAck(ds[i]) == Some(r.base - 1))
    decreases |ds|
  {
    if |ds| > 0 {
      var ack := ExtractAck(ds[0]);
      var s1 := OnAck(s, ack);
      if !(ack.Some? && s1.base >= c.total) {
        var r := AwaitAcks(c, s1, ds[1..]);
        AwaitAcksValue(c, s1, ds[1..]);
        if r.base < c.total {
          forall i | 0 <= i < |ds| && ExtractAck(ds[i]).Some?
            ensures ExtractAck(ds[i]).value < r.base
          {
            if i > 0 {
              assert ds[i] == ds[1..][i - 1];
            }
          }
        }
        if r.base > s1.base {
          var i :| 0 <= i < |ds[1..]| && ExtractAck(ds[1..][i]) == Some(r.base - 1);
          assert ExtractAck(ds[i + 1]) == Some(r.base - 1);
        }
      }
    }
  }

  /** The last sequence number retransmitted on a timeout, plus one: `min(next_seq_num, TOTAL_PACKETS)`. */
  function ResendLimit(c: Config, s: State): int {
    Min(s.next, c.total)
  }

  /** The retransmission loop over packets `i .. hi-1`: every attempt counts as a retransmission. */
  function Retransmit(i: nat, hi: int, s: State, loss: LossOracle): (r: Step)
    ensures r.state.base == s.base && r.state.next == s.next && r.state.timeouts == s.timeouts
    ensures Attempts(r.state.stats) == Attempts(s.stats) + RangeSize(i, hi)
    ensures r.state.stats.retransmissions == s.stats.retransmissions + RangeSize(i, hi)
    ensures r.state.stats.sent == s.stats.sent + |r.out|
    ensures r.state.stats.acksReceived == s.stats.acksReceived
    ensures r.out == Delivered(i, hi, Attempts(s.stats), loss)
    decreases hi - i
  {
    if i < hi then
      var (st, out) := SendPacket(s.stats, i, loss);
      var rest := Retransmit(i + 1, hi, s.(stats := st.(retransmissions := st.retransmissions + 1)), loss);
      Step(rest.state, out + rest.out)
    else
      Step(s, [])
  }

  /**
    The timeout handler: count the timeout; past MAX_TIMEOUTS send one abort
    frame and leave the loop, otherwise resend the whole outstanding window
    `[base, min(next_seq_num, TOTAL_PACKETS))`.
   */
  function OnTimeout(c: Config, s: State, loss: LossOracle): (r: RoundResult)
    ensures r.state.timeouts == s.timeouts + 1
    ensures r.state.base == s.base && r.state.next == s.next
    ensures r.verdict != Completed
    ensures r.verdict == Aborted <==> s.timeouts + 1 > c.maxTimeouts
    ensures r.verdict == Aborted ==> r.out == [Abort] && r.state.stats == s.stats
    ensures r.verdict == Continuing ==>
              && r.out == Delivered(s.base, ResendLimit(c, s), Attempts(s.stats), loss)
              && r.state.stats.retransmissions == s.stats.retransmissions + RangeSize(s.base, ResendLimit(c, s))
              && Attempts(r.state.stats) == Attempts(s.stats) + RangeSize(s.base, ResendLimit(c, s))
              && r.state.stats.sent == s.stats.sent + |r.out|
              && r.state.stats.acksReceived == s.stats.acksReceived
  {
    var t := s.timeouts + 1;
    if t > c.maxTimeouts then
      RoundResult(s.(timeouts := t), [Abort], Aborted)
    else
      var resent := Retransmit(s.base, ResendLimit(c, s), s.(timeouts := t), loss);
      RoundResult(resent.state, resent.out, Continuing)
  }

  /**
    One pass of the session loop: fill the window, take the acks that arrive
    in time, and, unless they completed the transfer, handle the timeout that
    ends every unfinished wait.
   */
  function Round(c: Config, s: State, ds: seq<Datagram>, loss: LossOracle): (r: RoundResult)
    requires forall i :: 0 <= i < |ds| ==> ClientDomain(ds[i])
    ensures r.state.base >= s.base
    ensures r.state.next == if s.next < FillLimit(c, s) then FillLimit(c, s) else s.next
    ensures r.verdict == Completed <==> r.state.base >= c.total
    ensures r.verdict == Completed && s.base < c.total ==> r.state.timeouts == 0
    ensures r.verdict != Completed ==> r.state.timeouts == if r.state.base > s.base then 1 else s.timeouts + 1
    ensures r.verdict == Aborted <==> r.verdict != Completed && r.state.timeouts > c.maxTimeouts
    ensures r.verdict != Aborted ==> DataOnly(r.out)
    ensures r.verdict == Aborted ==> |r.out| > 0 && r.out[|r.out| - 1] == Abort && DataOnly(r.out[..|r.out| - 1])
    ensures WindowInv(c, s) ==> WindowInv(c, r.state)
  {
    var filled := Fill(c, s, loss);
    var acked := AwaitAcks(c, filled.state, ds);
    if acked.base >= c.total then
      RoundResult(acked, filled.out, Completed)
    else
      var timedOut := OnTimeout(c, acked, loss);
      assert timedOut.verdict == Aborted ==> (filled.out + timedOut.out)[..|filled.out|] == filled.out;
      RoundResult(timedOut.state, filled.out + timedOut.out, timedOut.verdict)
  }

  datatype Outcome = Running | Finished | Abandoned

  datatype Session = Session(state: State, out: seq<ClientFrame>, outcome: Outcome)

  /**
    What a session puts on the wire: data frames only while it runs; data
    frames then the end marker on completion; data frames, one abort frame
    and the end marker after an abort.
   */
  predicate SessionShape(out: seq<ClientFrame>, outcome: Outcome) {
    match outcome
    case Running => DataOnly(out)
    case Finished => |out| >= 1 && out[|out| - 1] == End && DataOnly(out[..|out| - 1])
    case Abandoned =>
      |out| >= 2 && out[|out| - 1] == End && out[|out| - 2] == Abort && DataOnly(out[..|out| - 2])
  }

  /** Data frames sent before a session's remaining output keep its shape. */
  lemma DataThenShape(a: seq<ClientFrame>, b: seq<ClientFrame>, outcome: Outcome)
    requires DataOnly(a) && SessionShape(b, outcome)
    ensures SessionShape(a + b, outcome)
  {
    match outcome
    case Running =>
    case Finished =>
      assert (a + b)[..|a + b| - 1] == a + b[..|b| - 1];
    case Abandoned =>
      assert (a + b)[..|a + b| - 2] == a + b[..|b| - 2];
  }

  predicate AllClientDomain(rounds: seq<seq<Datagram>>) {
    forall i, j :: 0 <= i < |rounds| && 0 <= j < |rounds[i]| ==> ClientDomain(rounds[i][j])
  }

  /** Prepending one round's datagrams keeps every datagram in the client's domain. */
  lemma AllClientDomainCons(ds: seq<Datagram>, rounds: seq<seq<Datagram>>)
    requires forall i :: 0 <= i < |ds| ==> ClientDomain(ds[i])
    requires AllClientDomain(rounds)
    ensures AllClientDomain([ds] + rounds)
  {
    forall i, j | 0 <= i < |[ds] + rounds| && 0 <= j < |([ds] + rounds)[i]|
      ensures ClientDomain(([ds] + rounds)[i][j])
    {
      if i > 0 {
        assert ([ds] + rounds)[i] == rounds[i - 1];
      }
    }
  }

  /** Dropping the first round keeps every datagram in the client's domain. */
  lemma AllClientDomainTail(rounds: seq<seq<Datagram>>)
    requires |rounds| > 0 && AllClientDomain(rounds)
    ensures AllClientDomain(rounds[1..])
  {
    forall i, j | 0 <= i < |rounds| - 1 && 0 <= j < |rounds[1..][i]|
      ensures ClientDomain(rounds[1..][i][j])
    {
      assert rounds[1..][i] == rounds[i + 1];
    }
  }

  /** An aborting round's output followed by the end marker is an abandoned session's shape. */
  lemma AbortThenEnd(out: seq<ClientFrame>)
    requires |out| > 0 && out[|out| - 1] == Abort && DataOnly(out[..|out| - 1])
    ensures SessionShape(out + [End], Abandoned)
  {
    assert (out + [End])[..|out| - 1] == out[..|out| - 1];
  }

  /**
    The session loop `while base < TOTAL_PACKETS`, one element of `rounds`
    per pass, followed by the end marker once the loop is left, whether by
    completion or by the abort `break`. `Running` means the rounds ran out
    while the loop would still go on.
   */
  function Run(c: Config, s: State, rounds: seq<seq<Datagram>>, loss: LossOracle): (r: Session)
    requires AllClientDomain(rounds)
    ensures r.state.base >= s.base
    ensures r.outcome == Finished <==> r.state.base >= c.total
    ensures SessionShape(r.out, r.outcome)
    ensures r.outcome == Abandoned ==> r.state.timeouts > c.maxTimeouts
    ensures WindowInv(c, s) ==> WindowInv(c, r.state)
    decreases |rounds|
  {
    if s.base >= c.total then
      Session(s, [End], Finished)
    else if |rounds| == 0 then
      Session(s, [], Running)
    else
      var round := Round(c, s, rounds[0], loss);
      if round.verdict == Aborted then
        AbortThenEnd(round.out);
        Session(round.state, round.out + [End], Abandoned)
      else
        AllClientDomainTail(rounds);
        var rest := Run(c, round.state, rounds[1..], loss);
        DataThenShape(round.out, rest.out, rest.outcome);
        Session(rest.state, round.out + rest.out, rest.outcome)
  }

  /** From the initial state, the window bound holds for any non-negative window and total. */
  lemma InitialWindow(c: Config)
    requires c.window >= 0 && c.total >= 0
    ensures WindowInv(c, Initial)
  {
  }

  /**
    A duplicate ack (`base - 1`) is counted but neither slides the window
    nor clears the timeout counter; at `base = 0` that is the ack `-1`.
   */
  lemma DuplicateAckIgnored(s: State)
    ensures OnAck(s, Some(s.base - 1)).base == s.base
    ensures OnAck(s, Some(s.base - 1)).timeouts == s.timeouts
    ensures OnAck(s, Some(s.base - 1)).stats.acksReceived == s.stats.acksReceived + 1
  {
  }

  /** Data-only output holds neither an abort frame nor an end marker. */
  lemma {:induction false} DataOnlyHasNoControl(fs: seq<ClientFrame>)
    requires DataOnly(fs)
    ensures multiset(fs)[Abort] == 0 && multiset(fs)[End] == 0
    decreases |fs|
  {
    if |fs| > 0 {
      assert fs == [fs[0]] + fs[1..];
      DataOnlyHasNoControl(fs[1..]);
    }
  }

  /**
    A finished or abandoned session sends exactly one end marker, as its
    last frame; an abandoned one sends exactly one abort frame, right before
    it; a completed or running one sends none.
   */
  lemma ShapeCounts(out: seq<ClientFrame>, outcome: Outcome)
    requires SessionShape(out, outcome)
    ensures multiset(out)[End] == if outcome == Running then 0 else 1
    ensures multiset(out)[Abort] == if outcome == Abandoned then 1 else 0
    ensures outcome != Running ==> out[|out| - 1] == End
  {
    match outcome
    case Running =>
      DataOnlyHasNoControl(out);
    case Finished =>
      assert out == out[..|out| - 1] + [End];
      DataOnlyHasNoControl(out[..|out| - 1]);
    case Abandoned =>
      assert out == out[..|out| - 2] + [Abort, End];
      DataOnlyHasNoControl(out[..|out| - 2]);
  }

  /**
    Against a peer that never answers, the counter climbs by one per round:
    the session is abandoned on the round that takes it past MAX_TIMEOUTS,
    and is still running before that.
   */
  lemma {:induction false} SilentPeerAborts(c: Config, s: State, rounds: seq<seq<Datagram>>, loss: LossOracle)
    requires s.base < c.total && s.timeouts <= c.maxTimeouts
    requires forall i :: 0 <= i < |rounds| ==> rounds[i] == []
    ensures AllClientDomain(rounds)
    ensures Run(c, s, rounds, loss).outcome ==
              if |rounds| > c.maxTimeouts - s.timeouts then Abandoned else Running
    decreases |rounds|
  {
    if |rounds| > 0 {
      var round := Round(c, s, rounds[0], loss);
      assert round.state.base == s.base;
      if round.verdict != Aborted {
        SilentPeerAborts(c, round.state, rounds[1..], loss);
      }
    }
  }

  /**
    With MAX_TIMEOUTS = 2 and no ack ever arriving, the third timeout
    abandons the transfer of ten packets; two rounds are not enough.
   */
  lemma SilentPeerScenario(c: Config, rounds: seq<seq<Datagram>>, loss: LossOracle)
    requires c.window == 4 && c.total == 10 && c.maxTimeouts == 2
    requires |rounds| == 3 && forall i :: 0 <= i < |rounds| ==> rounds[i] == []
    ensures AllClientDomain(rounds) && AllClientDomain(rounds[..2])
    ensures Run(c, Initial, rounds, loss).outcome == Abandoned
    ensures Run(c, Initial, rounds[..2], loss).outcome == Running
  {
    SilentPeerAborts(c, Initial, rounds, loss);
    SilentPeerAborts(c, Initial, rounds[..2], loss);
  }
}

=== FILE: wrappers.dfy ===
/** The optional value both endpoints use in place of Python's `None`. */
module Wrappers {

  datatype Option<+T> = None | Some(value: T)
}
